=== FILE: README.md ===
# Optimistic-send message list

A Dafny model of the message list behind the chat demo in `src/App.jsx`. The
list holds records `{id, text, status}`, and `status` is one of `sending`,
`sent` or `error`. `sendMessage` changes the list twice:

- **Submit**, before the `await`: blank text is ignored. Any other text is
  appended at the end as a `sending` record. Its id is the `Date.now()`
  timestamp and its text is stored untrimmed.
- **Resolve**, after the 1500 ms timer: every record carrying that id is
  rewritten to `sent`, or to `error` when `shouldFail` was on.

The `Message` component shows each record's status icon, colour and label.
It shows a resend button exactly for records in `error`.

Files:

- `js_string.dfy` (module `JsString`): `String.prototype.trim` and the
  whitespace set it strips. `IsBlank` means "every character is whitespace".
  `TrimmedEmptyIffBlank` proves that this is exactly when `!text.trim()` holds.
- `message_list.dfy` (module `MessageList`): `Status`, `Message`, and the two
  transitions `Submit` and `Resolve` as functions on `seq<Message>`. Lemmas
  show what they keep and what they change.
- `message_view.dfy` (module `MessageView`): the status lookups and what one
  record renders as.
- `delivery.dfy` (module `Delivery`): the flow over time. A `Session` is the
  list plus the `sendMessage` calls still suspended at their `await`. Each
  such call is a `Suspended` value holding the record's id and the
  `shouldFail` value its closure captured. `Run` applies a sequence of calls
  and timer firings. Every call sets the same 1500 ms timer, so the program
  resumes the calls in call order. `Run` allows any order, and the program's
  order is one of them. `Valid` is the invariant of sessions reached
  with distinct timestamps. `SendThenFire` is the life of one message.

Ids are taken as parameters, because `Date.now()` is a clock read. The code
does not make ids unique. The per-record lemmas about `Resolve` hold for any
ids. Uniqueness only appears as a stated hypothesis: `UniqueIds`, or
`FreshSend` for each call of a run. `ResolveCollision` shows what happens
without it: two records that share a timestamp are resolved together.

`sendMessage`'s result (a Promise) is ignored by its caller. Besides the
list, it clears the input box (src/App.jsx:56), which is left out.
The resend button (src/App.jsx:34-36) has no click handler, so an `error`
record is never re-sent. When timestamps never repeat, `sent` and `error`
are both final (`RunKeepsRecords`). A repeated timestamp lets a later
delivery rewrite a resolved record (`ResolveCollision`).

## Model

| member | source | states |
|---|---|---|
| `JsString.IsWhitespace` | src/App.jsx:50 | The characters `trim` strips: every one lies in the Basic Multilingual Plane, and no printable ASCII character is among them |
| `JsString.TrimStart` | src/App.jsx:50 | The result is a suffix of the input, everything dropped is whitespace, and the result does not start with whitespace |
| `JsString.TrimEnd` | src/App.jsx:50 | The result is a prefix of the input, everything dropped is whitespace, and the result does not end with whitespace |
| `JsString.Trim` | src/App.jsx:50 | `text.trim()` is a contiguous slice of the input. Everything before it and everything after it is whitespace, and it neither starts nor ends with whitespace |
| `JsString.IsBlank` | src/App.jsx:50 | The empty string is blank. Non-empty blank text starts and ends with whitespace. `TrimmedEmptyIffBlank` ties blankness to `!text.trim()` |
| `JsString.TrimmedEmptyIffBlank` | src/App.jsx:50 | `text.trim()` is empty (so `!text.trim()` holds) exactly when every character is whitespace; the empty string included |
| `MessageList.Outcome` | src/App.jsx:61-76 | A resolved delivery never writes `sending`; it writes `error` exactly when `shouldFail` is on (the thrown error is caught) and `sent` otherwise |
| `MessageList.Submit` | src/App.jsx:50-55 | Blank text leaves the list unchanged. Other text makes it exactly one longer, keeps all earlier records in order, and puts last a record with the given id, the untrimmed text and status `sending` |
| `MessageList.ResolveOne` | src/App.jsx:68-74 | One record after a resolution keeps its id and text. A record with the matching id takes the outcome status; any other record is returned unchanged |
| `MessageList.Resolve` | src/App.jsx:63-75 | Length, order, every id and every text are kept. Every record with the matching id gets `sent` or `error` per `shouldFail`. Every other record is unchanged; no uniqueness is assumed |
| `MessageList.ResolveAbsent` | src/App.jsx:68-75 | Resolving an id that no record carries returns the list unchanged |
| `MessageList.ResolveTwice` | src/App.jsx:68-75 | Resolving one id twice gives the list resolved once with the later outcome |
| `MessageList.ResolveIdempotent` | src/App.jsx:68-70 | Resolving the same id with the same outcome twice equals resolving it once |
| `MessageList.ResolveCommutes` | src/App.jsx:63-75 | Resolutions of two different ids give the same list in either order |
| `MessageList.ResolveSubmitCommute` | src/App.jsx:55-75 | A resolution of one id and an append with another id can be swapped |
| `MessageList.IdsPreserved` | src/App.jsx:55-75 | Resolve keeps the id sequence. Submit keeps it for blank text and otherwise extends it by exactly the new id |
| `MessageList.SubmitKeepsUnique` | src/App.jsx:50-55 | With distinct ids and a fresh timestamp, the ids stay distinct after Submit. The new id is present exactly when the text was not blank |
| `MessageList.ResolveUnique` | src/App.jsx:68-75 | When ids are distinct, resolving the id of record k changes only record k, and only its status |
| `MessageList.ResolveCollision` | src/App.jsx:52-75 | Two records that share a `Date.now()` timestamp both take the outcome of a delivery for that id |
| `MessageView.Icon` | src/App.jsx:5-9 | Every status has a non-empty icon that does not start with whitespace |
| `MessageView.Colour` | src/App.jsx:11-15 | Every status has a Tailwind text-colour class, a string starting with `text-` |
| `MessageView.Label` | src/App.jsx:27-29 | For every status the three conditional label fragments render a non-empty label starting with a space |
| `MessageView.Render` | src/App.jsx:25-36 | A record renders its text verbatim and the icon, colour and label of its status. The resend button is shown exactly when the status is `error` |
| `MessageView.DisplayDistinguishes` | src/App.jsx:5-29 | The lookups cover all three statuses. Two different statuses never share an icon, a colour or a label |
| `MessageView.RetryAfterResolve` | src/App.jsx:33-37 | After a resolution, records with the matching id show the resend button exactly when the delivery failed. Other records keep the button they had |
| `MessageView.SubmittedView` | src/App.jsx:25-36 | A freshly submitted record shows the `sending` label, its text as typed, and no resend button |
| `Delivery.SendMessage` | src/App.jsx:49-59 | Before the `await`: the list becomes `Submit` of the old list. Exactly when a record is appended, one suspended call with its id and captured `shouldFail` is added after the existing ones, which are kept |
| `Delivery.FireDelivery` | src/App.jsx:59-76 | After the `await`: the list becomes `Resolve` of the old list with the call's id and captured `shouldFail`. That call, and only that one, leaves the suspended calls |
| `Delivery.Step` | src/App.jsx:49-77 | One call or timer firing adds at most one record, and a firing adds none. Every existing record keeps its position, id and text |
| `Delivery.Run` | src/App.jsx:49-77 | A sequence of events adds at most one record per event. Every existing record keeps its position, id and text |
| `Delivery.EmptyValid` | src/App.jsx:44 | The initial empty list with no calls waiting satisfies the session invariant |
| `Delivery.SendKeepsValid` | src/App.jsx:49-59 | A call with a fresh timestamp keeps the invariant: ids distinct, each waiting call owns one record, and a record is `sending` exactly while its call waits |
| `Delivery.FireKeepsValid` | src/App.jsx:59-76 | A timer firing keeps the invariant: its record leaves `sending` as its call stops waiting |
| `Delivery.FireChangesOne` | src/App.jsx:59-76 | In a valid session, firing a waiting call changes exactly one record: its own, from `sending` to the outcome captured at the call. Length and every other record are unchanged |
| `Delivery.StepKeepsValid` | src/App.jsx:49-77 | Any call with a fresh timestamp, or any timer firing, keeps the invariant |
| `Delivery.RunKeepsValid` | src/App.jsx:49-77 | Every interleaving of calls with fresh timestamps and timer firings keeps the invariant |
| `Delivery.StepKeepsRecords` | src/App.jsx:49-77 | One step never shortens the list, never moves a record or changes its id or text, and never touches a record that has left `sending` |
| `Delivery.RunKeepsRecords` | src/App.jsx:49-77 | Over any run from a valid session in which every non-blank call reads a fresh timestamp, each record keeps its position, id and text, and a `sent` or `error` record never changes again |
| `Delivery.SendThenFire` | src/App.jsx:49-77 | With distinct timestamps: a non-blank call appends its record at position p. Through any later calls and firings it stays at p as `sending` with its text. When its own timer fires, that record alone becomes `sent` or `error` |
| `Delivery.HelloSent` | src/App.jsx:49-70 | Sending "hello" with failure off and firing its timer leaves one `sent` record |
| `Delivery.HelloFails` | src/App.jsx:49-76 | Sending "hello" with failure on and firing its timer leaves one `error` record |
| `Delivery.BlankSendsNothing` | src/App.jsx:50 | Sending "" or whitespace only leaves the list empty and starts no timer |
| `Delivery.ResolvedOutOfOrder` | src/App.jsx:49-77 | The model's wider order: the program always resumes "a" before "b". Even with b's timer firing first, both end `sent`, in the order "a", "b" |

## Left out

- Timing: `setTimeout`, the 1500 ms delay and the `await` (src/App.jsx:59). A suspended call is a pending `Suspended` value, and its timer firing is a separate event. Every call sets the same delay, so the program resumes the calls in call order. The model allows every order, a superset of the program's, so what it proves for all runs holds for the program's runs too.
- The clock: `Date.now()` (src/App.jsx:52). The id is an input, and its freshness is a hypothesis of the lemmas that need it.
- Retry: the resend button (src/App.jsx:34-36) has no handler, so no `error → sending` transition is modelled.
- The input box and the failure checkbox (src/App.jsx:45-46, 56, 79-82, 103-128). `shouldFail` enters only as the value a call's closure captured, stored in its `Suspended` value.
- React's updater and closure semantics: each `setMessages(prev => …)` is the direct application of `Submit` or `Resolve` to the current list.
- Rendering beyond one record's visible data: markup, layout, the avatar, the empty-list placeholder (src/App.jsx:91-99) and list keys.
- `Delivery.Step`: a firing whose index names no waiting call changes nothing. Such an event cannot come from the code.
- Strings are sequences of Unicode scalar values, not UTF-16 code units. Every character `trim` strips is in the Basic Multilingual Plane, so blankness is the same either way.

=== FILE: delivery.dfy ===
/**
 * The whole `sendMessage` flow of src/App.jsx over time. A call with blank
 * text returns at once. Any other call appends its record, then suspends at
 * the `await` of a 1500 ms timer; that suspended continuation is modelled as a
 * pending delivery holding the record's id and the `shouldFail` value the
 * call's closure captured. When the timer fires the continuation resolves the
 * record. Every call sets the same 1500 ms timer, so the program resumes the
 * calls in the order they were made; the model lets the suspended calls
 * resume in any order, interleaved with further calls, which covers the
 * program's order as one case.
 */
module Delivery {
  import opened JsString
  import opened MessageList

  /** A `sendMessage` call suspended at its `await`. */
  datatype Suspended = Suspended(id: Id, shouldFail: bool)

  /** The message list together with the calls still waiting on their timer. */
  datatype Session = Session(messages: seq<Message>, pending: seq<Suspended>)

  /** A `sendMessage(text)` call whose `Date.now()` read `id` and whose
      closure saw `shouldFail`, or the firing of the `k`-th pending timer. */
  datatype Event = Send(id: Id, text: string, shouldFail: bool) | Fire(k: nat)

  const Empty := Session([], [])

  /** Some call still waiting on its timer resolves `id`. */
  predicate Waiting(pending: seq<Suspended>, id: Id) {
    exists k :: 0 <= k < |pending| && pending[k].id == id
  }

  /** No two waiting calls resolve the same id. */
  predicate DistinctDeliveries(pending: seq<Suspended>) {
    forall a, b :: 0 <= a < b < |pending| ==> pending[a].id != pending[b].id
  }

  /** The waiting calls once the `k`-th has run. */
  function Without(pending: seq<Suspended>, k: nat): (r: seq<Suspended>)
    requires k < |pending|
    ensures |r| == |pending| - 1
    ensures forall j :: 0 <= j < |r| ==> r[j] == pending[if j < k then j else j + 1]
    ensures multiset(r) + multiset{pending[k]} == multiset(pending)
  {
    assert pending == pending[..k] + [pending[k]] + pending[k + 1..];
    pending[..k] + pending[k + 1..]
  }

  /** What every reachable session satisfies when timestamps never repeat:
      ids are distinct, each pending delivery belongs to a record, and a
      record is `sending` exactly when its delivery is still pending. */
  predicate Valid(s: Session) {
    && UniqueIds(s.messages)
    && DistinctDeliveries(s.pending)
    && (forall k :: 0 <= k < |s.pending| ==> HasId(s.messages, s.pending[k].id))
    && (forall i :: 0 <= i < |s.messages| ==> (s.messages[i].status == Sending <==> Waiting(s.pending, s.messages[i].id)))
  }

  /** Everything `sendMessage` does before its `await`. */
  function SendMessage(s: Session, id: Id, text: string, shouldFail: bool): (r: Session)
    ensures r.messages == Submit(s.messages, id, text)
    ensures |r.messages| - |s.messages| == |r.pending| - |s.pending| <= 1
    ensures r.pending[..|s.pending|] == s.pending
    ensures |r.pending| > |s.pending| ==> r.pending[|s.pending|] == Suspended(id, shouldFail)
  {
    if IsBlank(text) then s
    else Session(Submit(s.messages, id, text), s.pending + [Suspended(id, shouldFail)])
  }

  /** Everything `sendMessage` does after its `await`, for the `k`-th
      pending call. */
  function FireDelivery(s: Session, k: nat): (r: Session)
    requires k < |s.pending|
    ensures r.messages == Resolve(s.messages, s.pending[k].id, s.pending[k].shouldFail)
    ensures multiset(r.pending) + multiset{s.pending[k]} == multiset(s.pending)
  {
    var d := s.pending[k];
    Session(Resolve(s.messages, d.id, d.shouldFail), Without(s.pending, k))
  }

  /** One event. Records are only ever appended, one per call at most, and
      a firing never adds one; no step moves, re-ids or retexts a record. */
  function Step(s: Session, e: Event): (r: Session)
    ensures |s.messages| <= |r.messages| <= |s.messages| + 1
    ensures e.Fire? ==> |r.messages| == |s.messages|
    ensures forall i :: 0 <= i < |s.messages| ==> r.messages[i].id == s.messages[i].id && r.messages[i].text == s.messages[i].text
  {
    match e
    case Send(id, text, shouldFail) => SendMessage(s, id, text, shouldFail)
    case Fire(k) => if k < |s.pending| then FireDelivery(s, k) else s
  }

  /** A sequence of events. The list grows by at most one record per
      event, and every record already there keeps its position, id and text. */
  function Run(s: Session, evs: seq<Event>): (r: Session)
    ensures |s.messages| <= |r.messages| <= |s.messages| + |evs|
    ensures forall i :: 0 <= i < |s.messages| ==> r.messages[i].id == s.messages[i].id && r.messages[i].text == s.messages[i].text
    decreases |evs|
  {
    if evs == [] then s else Run(Step(s, evs[0]), evs[1..])
  }

  /** The timestamp a non-blank call reads differs from every existing id.
      A blank call returns before reading the clock. */
  predicate FreshSend(s: Session, e: Event) {
    e.Send? && !IsBlank(e.text) ==> !HasId(s.messages, e.id)
  }

  predicate Admissible(s: Session, evs: seq<Event>)
    decreases |evs|
  {
    evs == [] || (FreshSend(s, evs[0]) && Admissible(Step(s, evs[0]), evs[1..]))
  }

  lemma EmptyValid()
    ensures Valid(Empty)
  {
  }

  /** Removing the `k`-th waiting call keeps the calls distinct and stops
      exactly its id from waiting. */
  lemma WithoutWaiting(pending: seq<Suspended>, k: nat, id: Id)
    requires DistinctDeliveries(pending) && k < |pending|
    ensures DistinctDeliveries(Without(pending, k))
    ensures Waiting(Without(pending, k), id) <==> Waiting(pending, id) && id != pending[k].id
  {
    var r := Without(pending, k);
    if Waiting(pending, id) && id != pending[k].id {
      var j :| 0 <= j < |pending| && pending[j].id == id;
      assert r[if j < k then j else j - 1] == pending[j];
    }
    if Waiting(r, id) {
      var j :| 0 <= j < |r| && r[j].id == id;
      var j' := if j < k then j else j + 1;
      assert pending[j'].id == id && j' != k;
    }
  }

  /** Appending a `sending` record with a fresh id together with its
      delivery keeps a session valid. */
  lemma AppendKeepsValid(s: Session, m: Message, d: Suspended)
    requires Valid(s) && !HasId(s.messages, m.id)
    requires m.status == Sending && d.id == m.id
    ensures Valid(Session(s.messages + [m], s.pending + [d]))
  {
    var r := Session(s.messages + [m], s.pending + [d]);
    var n := |s.messages|;
    forall i | 0 <= i < n ensures s.messages[i].id != m.id {
      assert HasId(s.messages, s.messages[i].id);
    }
    forall k | 0 <= k < |s.pending| ensures s.pending[k].id != m.id {
      assert HasId(s.messages, s.pending[k].id);
    }
    forall k | 0 <= k < |r.pending| ensures HasId(r.messages, r.pending[k].id) {
      if k < |s.pending| {
        assert HasId(s.messages, s.pending[k].id);
        var i :| 0 <= i < n && s.messages[i].id == s.pending[k].id;
        assert r.messages[i] == s.messages[i];
      } else {
        assert r.messages[n].id == m.id;
      }
    }
    forall x ensures Waiting(r.pending, x) <==> Waiting(s.pending, x) || x == m.id {
      if Waiting(s.pending, x) {
        var k :| 0 <= k < |s.pending| && s.pending[k].id == x;
        assert r.pending[k] == s.pending[k];
      }
      if x == m.id {
        assert r.pending[|s.pending|].id == m.id;
      }
    }
  }

  /** A call with a fresh timestamp keeps the session valid: blank text
      changes nothing, other text adds a `sending` record and its delivery. */
  lemma SendKeepsValid(s: Session, id: Id, text: string, shouldFail: bool)
    requires Valid(s)
    requires !IsBlank(text) ==> !HasId(s.messages, id)
    ensures Valid(SendMessage(s, id, text, shouldFail))
  {
    if !IsBlank(text) {
      assert Submit(s.messages, id, text) == s.messages + [Message(id, text, Sending)];
      AppendKeepsValid(s, Message(id, text, Sending), Suspended(id, shouldFail));
    }
  }

  /** Firing a pending delivery keeps the session valid: its record leaves
      `sending` and its entry leaves the pending list. */
  lemma FireKeepsValid(s: Session, k: nat)
    requires Valid(s) && k < |s.pending|
    ensures Valid(FireDelivery(s, k))
  {
    var r := FireDelivery(s, k);
    forall x ensures Waiting(r.pending, x) <==> Waiting(s.pending, x) && x != s.pending[k].id {
      WithoutWaiting(s.pending, k, x);
    }
    forall j | 0 <= j < |r.pending| ensures HasId(r.messages, r.pending[j].id) {
      var x := r.pending[j].id;
      assert HasId(s.messages, s.pending[if j < k then j else j + 1].id);
      var i :| 0 <= i < |s.messages| && s.messages[i].id == x;
      assert r.messages[i].id == x;
    }
  }

  /** Firing a pending delivery rewrites exactly one record, its own, from
      `sending` to the outcome its call captured; every other record and the
      list's length are untouched. */
  lemma FireChangesOne(s: Session, k: nat) returns (p: nat)
    requires Valid(s) && k < |s.pending|
    ensures p < |s.messages| && s.messages[p].id == s.pending[k].id
    ensures s.messages[p].status == Sending
    ensures var r := FireDelivery(s, k).messages;
      && |r| == |s.messages|
      && r[p] == s.messages[p].(status := Outcome(s.pending[k].shouldFail))
      && forall i :: 0 <= i < |s.messages| && i != p ==> r[i] == s.messages[i]
  {
    assert HasId(s.messages, s.pending[k].id);
    p :| 0 <= p < |s.messages| && s.messages[p].id == s.pending[k].id;
    assert Waiting(s.pending, s.messages[p].id);
    ResolveUnique(s.messages, p, s.pending[k].shouldFail);
  }

  lemma StepKeepsValid(s: Session, e: Event)
    requires Valid(s) && FreshSend(s, e)
    ensures Valid(Step(s, e))
  {
    match e
    case Send(id, text, shouldFail) => SendKeepsValid(s, id, text, shouldFail);
    case Fire(k) => if k < |s.pending| { FireKeepsValid(s, k); }
  }

  /** Any admissible run from a valid session ends in a valid session. */
  lemma {:induction false} RunKeepsValid(s: Session, evs: seq<Event>)
    requires Valid(s) && Admissible(s, evs)
    ensures Valid(Run(s, evs))
    decreases |evs|
  {
    if evs != [] {
      StepKeepsValid(s, evs[0]);
      RunKeepsValid(Step(s, evs[0]), evs[1..]);
    }
  }

  /** One step never removes, moves or retexts a record, and never touches a
      record that is no longer `sending`. */
  lemma StepKeepsRecords(s: Session, e: Event)
    requires Valid(s)
    ensures var r := Step(s, e).messages;
      && |r| >= |s.messages|
      && (forall i :: 0 <= i < |s.messages| ==> r[i].id == s.messages[i].id && r[i].text == s.messages[i].text)
      && (forall i :: 0 <= i < |s.messages| && s.messages[i].status != Sending ==> r[i] == s.messages[i])
  {
  }

  /** Across any admissible run, each existing record keeps its position, id
      and text, and a record that has left `sending` never changes again. */
  lemma {:induction false} RunKeepsRecords(s: Session, evs: seq<Event>, i: nat)
    requires Valid(s) && Admissible(s, evs) && i < |s.messages|
    ensures var r := Run(s, evs).messages;
      && |r| >= |s.messages|
      && r[i].id == s.messages[i].id && r[i].text == s.messages[i].text
      && (s.messages[i].status != Sending ==> r[i] == s.messages[i])
    decreases |evs|
  {
    if evs != [] {
      StepKeepsRecords(s, evs[0]);
      StepKeepsValid(s, evs[0]);
      RunKeepsRecords(Step(s, evs[0]), evs[1..], i);
    }
  }

  /** The life of one message when timestamps never repeat. A non-blank
      `sendMessage` appends its record at position `p`; any admissible
      sequence of other calls and timer firings may follow while its own
      delivery is still pending, and through all of them the record stays
      at `p` with its text and `sending`. When its own timer then fires,
      that record alone changes, to the outcome captured at the call. */
  lemma SendThenFire(s: Session, id: Id, text: string, shouldFail: bool, mid: seq<Event>, k: nat)
    requires Valid(s) && !HasId(s.messages, id) && !IsBlank(text)
    requires Admissible(SendMessage(s, id, text, shouldFail), mid)
    requires var s2 := Run(SendMessage(s, id, text, shouldFail), mid);
      k < |s2.pending| && s2.pending[k] == Suspended(id, shouldFail)
    ensures var p := |s.messages|;
      var s2 := Run(SendMessage(s, id, text, shouldFail), mid);
      var s3 := FireDelivery(s2, k);
      && p < |s2.messages| && |s3.messages| == |s2.messages|
      && s2.messages[p] == Message(id, text, Sending)
      && s3.messages[p] == Message(id, text, Outcome(shouldFail))
      && forall i :: 0 <= i < |s2.messages| && i != p ==> s3.messages[i] == s2.messages[i]
  {
    var p := |s.messages|;
    var s1 := SendMessage(s, id, text, shouldFail);
    SendKeepsValid(s, id, text, shouldFail);
    assert s1.messages[p] == Message(id, text, Sending);
    RunKeepsRecords(s1, mid, p);
    RunKeepsValid(s1, mid);
    var s2 := Run(s1, mid);
    assert Waiting(s2.pending, s2.messages[p].id);
    var q := FireChangesOne(s2, k);
  }

  /** Sending "hello" with failure off: after the timer, the one record is `sent`. */
  lemma HelloSent()
    ensures Run(Empty, [Send(1, "hello", false), Fire(0)]).messages == [Message(1, "hello", Sent)]
  {
    var s1 := Session([Message(1, "hello", Sending)], [Suspended(1, false)]);
    var s2 := Session([Message(1, "hello", Sent)], []);
    assert Step(Empty, Send(1, "hello", false)) == s1 by {
      assert !IsWhitespace("hello"[0]);
    }
    assert Step(s1, Fire(0)) == s2 by {
      assert Resolve(s1.messages, 1, false) == s2.messages;
    }
    assert Run(s1, [Fire(0)]) == s2 by {
      assert [Fire(0)][1..] == [];
    }
    assert [Send(1, "hello", false), Fire(0)][1..] == [Fire(0)];
  }

  /** Sending "hello" with failure on: after the timer, the one record is `error`. */
  lemma HelloFails()
    ensures Run(Empty, [Send(1, "hello", true), Fire(0)]).messages == [Message(1, "hello", Error)]
  {
    var s1 := Session([Message(1, "hello", Sending)], [Suspended(1, true)]);
    var s2 := Session([Message(1, "hello", Error)], []);
    assert Step(Empty, Send(1, "hello", true)) == s1 by {
      assert !IsWhitespace("hello"[0]);
    }
    assert Step(s1, Fire(0)) == s2 by {
      assert Resolve(s1.messages, 1, true) == s2.messages;
    }
    assert Run(s1, [Fire(0)]) == s2 by {
      assert [Fire(0)][1..] == [];
    }
    assert [Send(1, "hello", true), Fire(0)][1..] == [Fire(0)];
  }

  /** Sending empty or whitespace-only text leaves the list empty and starts no timer. */
  lemma BlankSendsNothing()
    ensures Run(Empty, [Send(1, "", false), Send(2, " \t ", false)]) == Empty
  {
  }

  /** The four steps of `ResolvedOutOfOrder`, one session after another. */
  lemma OutOfOrderSteps()
    ensures Step(Empty, Send(1, "a", false)) == Session([Message(1, "a", Sending)], [Suspended(1, false)])
    ensures Step(Session([Message(1, "a", Sending)], [Suspended(1, false)]), Send(2, "b", false))
      == Session([Message(1, "a", Sending), Message(2, "b", Sending)], [Suspended(1, false), Suspended(2, false)])
    ensures Step(Session([Message(1, "a", Sending), Message(2, "b", Sending)], [Suspended(1, false), Suspended(2, false)]), Fire(1))
      == Session([Message(1, "a", Sending), Message(2, "b", Sent)], [Suspended(1, false)])
    ensures Step(Session([Message(1, "a", Sending), Message(2, "b", Sent)], [Suspended(1, false)]), Fire(0))
      == Session([Message(1, "a", Sent), Message(2, "b", Sent)], [])
  {
    var s1 := Session([Message(1, "a", Sending)], [Suspended(1, false)]);
    var s2 := Session([Message(1, "a", Sending), Message(2, "b", Sending)], [Suspended(1, false), Suspended(2, false)]);
    var s3 := Session([Message(1, "a", Sending), Message(2, "b", Sent)], [Suspended(1, false)]);
    assert !IsWhitespace("a"[0]);
    assert !IsWhitespace("b"[0]) && s1.messages + [Message(2, "b", Sending)] == s2.messages;
    assert Resolve(s2.messages, 2, false) == s3.messages;
    assert Resolve(s3.messages, 1, false) == [Message(1, "a", Sent), Message(2, "b", Sent)];
  }

  /** Sending "a" then "b" and resuming the calls in the reverse of the
      program's (call) order still keeps the insertion order and leaves both
      `sent`: the result does not depend on which delivery resolves first. */
  lemma ResolvedOutOfOrder()
    ensures Run(Empty, [Send(1, "a", false), Send(2, "b", false), Fire(1), Fire(0)]).messages
      == [Message(1, "a", Sent), Message(2, "b", Sent)]
  {
    var evs := [Send(1, "a", false), Send(2, "b", false), Fire(1), Fire(0)];
    var s1 := Session([Message(1, "a", Sending)], [Suspended(1, false)]);
    var s2 := Session([Message(1, "a", Sending), Message(2, "b", Sending)], [Suspended(1, false), Suspended(2, false)]);
    var s3 := Session([Message(1, "a", Sending), Message(2, "b", Sent)], [Suspended(1, false)]);
    var s4 := Session([Message(1, "a", Sent), Message(2, "b", Sent)], []);
    OutOfOrderSteps();
    assert Run(s3, [Fire(0)]) == s4 by {
      assert [Fire(0)][1..] == [];
    }
    assert Run(s2, [Fire(1), Fire(0)]) == s4 by {
      assert [Fire(1), Fire(0)][1..] == [Fire(0)];
    }
    assert Run(s1, evs[1..]) == s4 by {
      assert evs[1..][1..] == [Fire(1), Fire(0)];
    }
  }
}

=== FILE: js_string.dfy ===
/**
 * The part of JavaScript's String.prototype.trim that the message list relies
 * on: `!text.trim()` is true exactly when trimming leaves the empty string.
 *
 * Characters are Unicode scalar values. Every character that trim removes lies
 * in the Basic Multilingual Plane, so working on scalar values rather than on
 * UTF-16 code units does not change which characters are stripped.
 */
module JsString {

  /** WhiteSpace and LineTerminator code points, which trim strips from both ends:
      TAB, VT, FF, SP, NBSP, ZWNBSP, the other space separators (category Zs),
      LF, CR, LINE SEPARATOR and PARAGRAPH SEPARATOR. */
  predicate IsWhitespace(c: char): (b: bool)
    ensures b ==> c as int < 0x1_0000
    ensures '!' <= c <= '~' ==> !b
  {
    || c == '\t' || c == '\n' || c == '\U{000B}' || c == '\U{000C}' || c == '\r'
    || c == ' ' || c == '\U{00A0}' || c == '\U{1680}'
    || ('\U{2000}' <= c <= '\U{200A}')
    || c == '\U{2028}' || c == '\U{2029}' || c == '\U{202F}' || c == '\U{205F}'
    || c == '\U{3000}' || c == '\U{FEFF}'
  }

  /** Drops leading whitespace: the result is a suffix of `s`, everything
      dropped is whitespace, and what is left does not start with whitespace. */
  function TrimStart(s: string): (r: string)
    ensures |r| <= |s| && r == s[|s| - |r|..]
    ensures forall i :: 0 <= i < |s| - |r| ==> IsWhitespace(s[i])
    ensures r == [] || !IsWhitespace(r[0])
    decreases |s|
  {
    if s != [] && IsWhitespace(s[0]) then TrimStart(s[1..]) else s
  }

  /** Drops trailing whitespace: the result is a prefix of `s`, everything
      dropped is whitespace, and what is left does not end with whitespace. */
  function TrimEnd(s: string): (r: string)
    ensures |r| <= |s| && r == s[..|r|]
    ensures forall i :: |r| <= i < |s| ==> IsWhitespace(s[i])
    ensures r == [] || !IsWhitespace(r[|r| - 1])
    decreases |s|
  {
    if s != [] && IsWhitespace(s[|s| - 1]) then TrimEnd(s[..|s| - 1]) else s
  }

  /** String.prototype.trim: the input with a whitespace-only prefix and a
      whitespace-only suffix removed, leaving a string that neither starts
      nor ends with whitespace. */
  function Trim(s: string): (r: string)
    ensures var a := |s| - |TrimStart(s)|;
      && a + |r| <= |s| && r == s[a..a + |r|]
      && (forall i :: 0 <= i < a ==> IsWhitespace(s[i]))
      && (forall i :: a + |r| <= i < |s| ==> IsWhitespace(s[i]))
    ensures r == [] || (!IsWhitespace(r[0]) && !IsWhitespace(r[|r| - 1]))
  {
    TrimEnd(TrimStart(s))
  }

  /** Every character of `text` is whitespace (the empty string included). */
  predicate IsBlank(text: string): (b: bool)
    ensures text == [] ==> b
    ensures b && text != [] ==> IsWhitespace(text[0]) && IsWhitespace(text[|text| - 1])
  {
    forall i :: 0 <= i < |text| ==> IsWhitespace(text[i])
  }

  /** `!text.trim()` holds exactly for blank text: the empty string is the
      only falsy string, and trimming leaves nothing exactly when every
      character is whitespace. */
  lemma TrimmedEmptyIffBlank(text: string)
    ensures Trim(text) == [] <==> IsBlank(text)
  {
  }
}

=== FILE: message_list.dfy ===
/**
 * The optimistic-send message list kept by `App` in src/App.jsx: an ordered
 * list of records `{id, text, status}` with two transitions, the append made
 * when a message is submitted and the status rewrite made when its simulated
 * delivery resolves. Both are pure functions from the old list to the new one.
 */
module MessageList {
  import opened JsString

  /** A message id: the millisecond timestamp `Date.now()` taken at submit
      time. Nothing makes two such timestamps differ. */
  type Id = int

  datatype Status = Sending | Sent | Error

  datatype Message = Message(id: Id, text: string, status: Status)

  /** The ids of a list, in list order. */
  function Ids(msgs: seq<Message>): (ids: seq<Id>)
    ensures |ids| == |msgs|
    ensures forall i :: 0 <= i < |msgs| ==> ids[i] == msgs[i].id
  {
    seq(|msgs|, i requires 0 <= i < |msgs| => msgs[i].id)
  }

  /** Some record of the list carries `id`. */
  predicate HasId(msgs: seq<Message>, id: Id) {
    exists i :: 0 <= i < |msgs| && msgs[i].id == id
  }

  /** No two records share an id. */
  predicate UniqueIds(msgs: seq<Message>) {
    forall i, j :: 0 <= i < j < |msgs| ==> msgs[i].id != msgs[j].id
  }

  /** The status a resolved delivery writes: the thrown simulated network
      error is caught and turned into `error`, otherwise the record is `sent`. */
  function Outcome(shouldFail: bool): (st: Status)
    ensures st != Sending
    ensures st == Error <==> shouldFail
  {
    if shouldFail then Error else Sent
  }

  /** The optimistic append: blank input is ignored, otherwise one record
      holding the untrimmed text is added at the end, in status `sending`. */
  function Submit(msgs: seq<Message>, id: Id, text: string): (r: seq<Message>)
    ensures IsBlank(text) ==> r == msgs
    ensures !IsBlank(text) ==> |r| == |msgs| + 1 && r[..|msgs|] == msgs
    ensures !IsBlank(text) ==> r[|msgs|].id == id && r[|msgs|].text == text && r[|msgs|].status == Sending
  {
    if IsBlank(text) then msgs else msgs + [Message(id, text, Sending)]
  }

  /** One record after the resolution of delivery `id`: the spread
      `{ ...msg, status }` on a match, the record itself otherwise. */
  function ResolveOne(msg: Message, id: Id, shouldFail: bool): (r: Message)
    ensures r.id == msg.id && r.text == msg.text
    ensures msg.id == id ==> r.status == Outcome(shouldFail)
    ensures msg.id != id ==> r == msg
  {
    if msg.id == id then msg.(status := Outcome(shouldFail)) else msg
  }

  /** The resolution of delivery `id`: every record carrying `id` gets the
      outcome status; length, order, ids and texts are kept, and every other
      record is left as it was. */
  function Resolve(msgs: seq<Message>, id: Id, shouldFail: bool): (r: seq<Message>)
    ensures |r| == |msgs|
    ensures forall i :: 0 <= i < |msgs| ==> r[i].id == msgs[i].id && r[i].text == msgs[i].text
    ensures forall i :: 0 <= i < |msgs| && msgs[i].id == id ==> r[i].status == Outcome(shouldFail)
    ensures forall i :: 0 <= i < |msgs| && msgs[i].id != id ==> r[i] == msgs[i]
  {
    seq(|msgs|, i requires 0 <= i < |msgs| => ResolveOne(msgs[i], id, shouldFail))
  }

  /** Resolving an id that no record carries gives back the same list. */
  lemma ResolveAbsent(msgs: seq<Message>, id: Id, shouldFail: bool)
    requires !HasId(msgs, id)
    ensures Resolve(msgs, id, shouldFail) == msgs
  {
  }

  /** Resolving the same id twice: the later outcome is the one that stays. */
  lemma ResolveTwice(msgs: seq<Message>, id: Id, first: bool, second: bool)
    ensures Resolve(Resolve(msgs, id, first), id, second) == Resolve(msgs, id, second)
  {
  }

  /** Resolving the same id with the same outcome twice is resolving it once. */
  lemma ResolveIdempotent(msgs: seq<Message>, id: Id, shouldFail: bool)
    ensures Resolve(Resolve(msgs, id, shouldFail), id, shouldFail) == Resolve(msgs, id, shouldFail)
  {
    ResolveTwice(msgs, id, shouldFail, shouldFail);
  }

  /** Deliveries of different ids may resolve in either order with the same
      resulting list. */
  lemma ResolveCommutes(msgs: seq<Message>, a: Id, fa: bool, b: Id, fb: bool)
    requires a != b
    ensures Resolve(Resolve(msgs, a, fa), b, fb) == Resolve(Resolve(msgs, b, fb), a, fa)
  {
  }

  /** A resolution and a later append of another id can be swapped. */
  lemma ResolveSubmitCommute(msgs: seq<Message>, id: Id, shouldFail: bool, other: Id, text: string)
    requires id != other
    ensures Resolve(Submit(msgs, other, text), id, shouldFail) == Submit(Resolve(msgs, id, shouldFail), other, text)
  {
  }

  /** Both transitions keep the ids of the existing records. */
  lemma IdsPreserved(msgs: seq<Message>, id: Id, text: string, other: Id, shouldFail: bool)
    ensures Ids(Resolve(msgs, id, shouldFail)) == Ids(msgs)
    ensures Ids(Submit(msgs, other, text)) == if IsBlank(text) then Ids(msgs) else Ids(msgs) + [other]
  {
  }

  /** Submitting with an id no record carries keeps the ids distinct. */
  lemma SubmitKeepsUnique(msgs: seq<Message>, id: Id, text: string)
    requires UniqueIds(msgs) && !HasId(msgs, id)
    ensures UniqueIds(Submit(msgs, id, text))
    ensures HasId(Submit(msgs, id, text), id) <==> !IsBlank(text)
  {
  }

  /** When ids are distinct, resolving the id of record `k` changes record `k`
      alone, and only its status. */
  lemma ResolveUnique(msgs: seq<Message>, k: nat, shouldFail: bool)
    requires UniqueIds(msgs) && k < |msgs|
    ensures var r := Resolve(msgs, msgs[k].id, shouldFail);
      && r[k] == msgs[k].(status := Outcome(shouldFail))
      && forall i :: 0 <= i < |msgs| && i != k ==> r[i] == msgs[i]
  {
  }

  /** Two records that share a timestamp id are resolved together: the
      delivery of either one rewrites the status of both. */
  lemma ResolveCollision(msgs: seq<Message>, i: nat, j: nat, shouldFail: bool)
    requires i < j < |msgs| && msgs[i].id == msgs[j].id
    ensures var r := Resolve(msgs, msgs[j].id, shouldFail);
      r[i].status == Outcome(shouldFail) && r[j].status == Outcome(shouldFail)
  {
  }
}

=== FILE: message_view.dfy ===
/**
 * What the `Message` component of src/App.jsx shows for one record: the
 * status icon and colour looked up by status, the status label built from
 * three conditional fragments, the text, and whether the resend button is
 * rendered. Layout and markup are not modelled.
 */
module MessageView {
  import opened JsString
  import opened MessageList

  /** The `statusIcon` lookup table. */
  function Icon(s: Status): (r: string)
    ensures r != [] && !IsWhitespace(r[0])
  {
    match s
    case Sending => "\U{23F3}"
    case Sent => "\U{2713}"
    case Error => "\U{26A0}\U{FE0F}"
  }

  /** The `statusColor` lookup table (a Tailwind text-colour class). */
  function Colour(s: Status): (r: string)
    ensures |r| > 5 && r[..5] == "text-"
  {
    match s
    case Sending => "text-slate-400"
    case Sent => "text-green-600"
    case Error => "text-red-600"
  }

  /** The label fragments rendered by the three `status === ... && ' ...'`
      conditions; a false condition renders nothing. */
  function Label(s: Status): (r: string)
    ensures |r| >= 4 && r[0] == ' '
  {
    (if s == Sending then " \U{9001}\U{4FE1}\U{4E2D}" else "")
    + (if s == Sent then " \U{9001}\U{4FE1}\U{6E08}\U{307F}" else "")
    + (if s == Error then " \U{9001}\U{4FE1}\U{5931}\U{6557}" else "")
  }

  datatype View = View(colour: string, icon: string, caption: string, text: string, retry: bool)

  /** The rendering of one record: the text exactly as stored, and the
      resend button exactly for a record in status `error`. */
  function Render(m: Message): (v: View)
    ensures v.text == m.text
    ensures v.retry <==> m.status == Error
    ensures v.icon == Icon(m.status) && v.colour == Colour(m.status) && v.caption == Label(m.status)
  {
    View(Colour(m.status), Icon(m.status), Label(m.status), m.text, m.status == Error)
  }

  /** The display is a faithful image of the status: two different statuses
      never share an icon, a colour or a label. */
  lemma DisplayDistinguishes(s: Status, t: Status)
    requires s != t
    ensures Icon(s) != Icon(t) && Colour(s) != Colour(t) && Label(s) != Label(t)
  {
    assert Icon(s)[0] != Icon(t)[0];
    assert Colour(s)[5] != Colour(t)[5];
    assert Label(s)[3] != Label(t)[3];
  }

  /** After delivery `id` resolves, the records carrying `id` show the resend
      button exactly when the delivery failed; every other record keeps the
      button it had. */
  lemma RetryAfterResolve(msgs: seq<Message>, id: Id, shouldFail: bool, i: nat)
    requires i < |msgs|
    ensures Render(Resolve(msgs, id, shouldFail)[i]).retry
      == if msgs[i].id == id then shouldFail else Render(msgs[i]).retry
  {
  }

  /** A freshly submitted record shows no resend button and shows the text
      exactly as it was typed. */
  lemma SubmittedView(msgs: seq<Message>, id: Id, text: string)
    requires !IsBlank(text)
    ensures var v := Render(Submit(msgs, id, text)[|msgs|]);
      !v.retry && v.text == text && v.caption == Label(Sending)
  {
  }
}
